=== FILE: README.md ===
# Conversion layer of the VCF Terraform provider, in Dafny

The provider turns Terraform's generic attribute maps (`map[string]interface{}`)
into typed VMware Cloud Foundation request models and flattens response models
back into maps. This project models that conversion layer for three
sub-resources:

- the ESXi host **vmnic** (`TryConvertToVmNic`),
- the **NSX-T** configuration of a workload domain (`TryConvertToNsxSpec`) and
  the NSX cluster reference (`FlattenNsxClusterRef`),
- the vCenter **cluster** with its resource pools (`GetSddcClusterSpecFromSchema`,
  `getResourcePoolSpecsFromSchema`), together with the value domains the
  cluster and resource-pool schemas declare.

Modules:

| file | module | contents |
|---|---|---|
| `wrappers.dfy` | `Wrappers` | `Option` and `Result` |
| `values.dfy` | `Values` | the dynamic `Value`, Go's map lookup and type assertions, the `IsEmpty` and pointer helpers, int32 truncation |
| `lists.dfy` | `Lists` | element-wise list conversion where the first failure aborts |
| `vmnic.dfy` | `VmNic` | the vmnic converter |
| `nsx.dfy` | `Nsx` | the NSX-T converter and the cluster-reference flattener |
| `sddc_cluster.dfy` | `SddcCluster` | the cluster and resource-pool converters and the schema domains |

Modelling choices:

- A Go attribute value is a `Value`: `Nil`, a string, an int, a whole-number
  float, a bool, a list, a `map[string]interface{}` (`Obj`) or a
  `map[string]string` (`StrMap`). A missing key reads as `Nil`, as in Go.
- A nil input map is `None`.
- A conversion returns a `Result`. Its failure is either `Error(message)`, for
  the errors the source returns (with the source's exact messages), or
  `Panic(key)`, for a Go type assertion that fails on `key`. The model does not
  assume well-typed input. It keeps the source's order of assertions and
  checks, so it can say which failure comes first. Separate predicates
  (`Convertible`, `WellFormed`, `PoolTyped`, `ClusterTyped`) state exactly
  which inputs convert.
- Some helpers are not part of this model, so their behaviour is assumed:
  - `validation.IsEmpty` holds of nil and of strings, lists and maps of length zero.
  - `utils.ToStringPointer`, `ToInt32Pointer` and `ToBoolPointer` map nil to a nil
    pointer and otherwise assert the type. `ToInt32Pointer` truncates a Go int
    to int32.
- Go's `int32(x)` is two's-complement wrap-around (`Values.Int32Of`).
- The node converter `TryConvertToNsxManagerNodeSpec` is not part of this model.
  It is a function parameter, and the node spec type is a type parameter.
- Leaving out a required string attribute does not produce the source's
  "... is required" error. The type assertion on the missing key panics first.
  For the required string attributes, the "is required" error only comes from an
  empty string. The model follows the code here. Two other required errors
  work differently: "nsx_manager is required" comes from a nil check, and "at
  least one entry for nsx_manager is required" comes from an empty node list.

## Model

| member | source | states |
|---|---|---|
| `Values.IsEmpty` | internal/sddc/sddc_cluster_subresource.go:165 | the assumed emptiness check holds of nil and the empty string, and otherwise only of the empty list and the empty maps |
| `Values.OptionalString` | internal/network/vmnic_subresource.go:53-58 | an optional string attribute is copied only when present and non-empty, otherwise the result is ""; a present non-string value panics |
| `Values.Int32Of` | internal/sddc/sddc_cluster_subresource.go:193 | Go's int32 conversion gives a value in the int32 range congruent to the input modulo 2^32 |
| `Values.ToInt32Pointer` | internal/sddc/sddc_cluster_subresource.go:163 | nil gives a nil pointer, an int its int32 truncation, anything else panics |
| `Values.ToStringPointer` | internal/sddc/sddc_cluster_subresource.go:161 | nil gives a nil pointer, a string a pointer to it, anything else panics |
| `Values.ToBoolPointer` | internal/sddc/sddc_cluster_subresource.go:196 | nil gives a nil pointer, a bool a pointer to it, anything else panics |
| `Lists.ConvertAll` | internal/network/nsx_subresource.go:112-121 | a list converts iff every element does; the output has the input's length and element i comes from input i; a failure is the failure of the first failing element |
| `Lists.ConvertEach` | internal/sddc/sddc_cluster_subresource.go:185-221 | the source's loop, which appends each converted element and stops at the first failure, computes exactly `ConvertAll` |
| `Lists.FirstFailureReported` | internal/network/nsx_subresource.go:115-118 | when element k is the first to fail, the whole conversion fails with exactly k's error |
| `VmNic.TryConvertToVmNic` | internal/network/vmnic_subresource.go:43-60 | nil object and empty id are the only errors; the conversion succeeds iff the object is non-nil with a non-empty string id and well-typed optional attributes; ID equals the input id; Uplink and VdsName are set only from present, non-empty attributes and stay "" otherwise |
| `VmNic.VmNicObject` | internal/network/vmnic_subresource.go:20-38 | the attribute map of a vmnic holds exactly the schema's id, uplink and vds_name, each the vmnic's own string |
| `VmNic.VmNicRoundTrip` | internal/network/vmnic_subresource.go:43-60 | every vmnic with an id converts back from its attribute map unchanged |
| `VmNic.OnlySchemaKeysRead` | internal/network/vmnic_subresource.go:47-58 | keys other than id, uplink and vds_name never change the result |
| `Nsx.ConvertNsxSpec` | internal/network/nsx_subresource.go:70-124 | nil object errors; success iff every required check passes, the optional attributes are well typed and the node list is non-empty with every node converting; Vip, VipFqdn, admin password and licence key equal the non-empty input strings; FormFactor and audit password are set only from present, non-empty attributes; the node specs match the node list one-to-one and in order |
| `Nsx.TryConvertToNsxSpec` | internal/network/nsx_subresource.go:82-84 | as written, success additionally needs a non-nil `nsx_manager` attribute, beyond a well-formed object |
| `Nsx.TryConvertToNsxSpecCorrected` | internal/network/nsx_subresource.go:82-84 | with the presence check on `nsx_manager_node`, exactly the well-formed objects convert |
| `Nsx.FirstFailingCheckReported` | internal/network/nsx_subresource.go:71-92 | the checks run in the order vip, vip_fqdn, node presence, admin password, license_key, and the first failing one is the one reported |
| `Nsx.EmptyNodeListRejected` | internal/network/nsx_subresource.go:107-110 | an empty node list is refused with the "at least one entry" error even when every other check passes |
| `Nsx.NodeFailurePropagated` | internal/network/nsx_subresource.go:112-118 | the first node whose conversion fails decides the error, which is returned unchanged and with no result |
| `Nsx.NsxManagerKeyQuirk` | internal/network/nsx_subresource.go:82-84 | once vip and vip_fqdn pass, an object without the `nsx_manager` key is refused with "nsx_manager is required", whatever `nsx_manager_node` holds |
| `Nsx.SchemaShapedObjectRejected` | internal/network/nsx_subresource.go:18-66 | no object holding only the attributes the NSX schema declares converts |
| `Nsx.ExampleConfiguration` | internal/network/nsx_subresource.go:18-66 | the example configuration uses only attributes the NSX schema declares |
| `Nsx.ExampleConfigurationOutcomes` | internal/network/nsx_subresource.go:82-84 | the example is refused as written and accepted by the corrected converter |
| `Nsx.FlattenNsxClusterRef` | internal/network/nsx_subresource.go:150-160 | nil flattens to the empty map; a reference to a map with exactly the keys id, vip and vip_fqdn, holding its values |
| `Nsx.NsxClusterRefFromMap` | internal/network/nsx_subresource.go:128-148 | a cluster-reference map reads back to a reference iff its three schema attributes are strings, and the reference then holds those strings |
| `Nsx.FlattenRoundTrip` | internal/network/nsx_subresource.go:150-160 | flattening loses nothing: the reference, or its absence, is read back from the map |
| `Nsx.FlattenFromMap` | internal/network/nsx_subresource.go:150-160 | a map that reads back to a reference is that reference's flattening, restricted to the three keys |
| `SddcCluster.ToResourcePoolSpec` | internal/sddc/sddc_cluster_subresource.go:186-218 | a pool entry converts iff it is a map whose asserted attributes have their asserted types; reservation percentages and shares values are truncated to int32; limits, MHz and MB reservations, expandable flags, shares levels, name and type are copied unchanged; a failure is always a panic |
| `SddcCluster.GetResourcePoolSpecsFromSchema` | internal/sddc/sddc_cluster_subresource.go:184-222 | pool conversion is one-to-one and order-preserving; it succeeds iff every entry is a well-typed pool map |
| `SddcCluster.ConformingPoolConverts` | internal/sddc/sddc_cluster_subresource.go:56-154 | a pool inside the declared domains converts; its spec keeps the reservation percentages (in [0,100]), the shares levels (custom, high, low, normal) and the type (management, compute, network, or unset) |
| `SddcCluster.NameOnlyPoolGetsDefaults` | internal/sddc/sddc_cluster_subresource.go:73-150 | a pool given only a name conforms once the declared defaults are applied, and converts to CPU and memory limits of -1, expandable reservations, 0 percentages, "normal" shares and 0 shares values |
| `SddcCluster.ReadVmFolders` | internal/sddc/sddc_cluster_subresource.go:164-167 | an empty vm_folder leaves VMFolders nil; a non-empty one must be a `map[string]string` or the assertion panics |
| `SddcCluster.ReadVmFoldersCorrected` | internal/sddc/sddc_cluster_subresource.go:164-167 | an empty vm_folder leaves VMFolders nil; a string-valued attribute map is carried over key by key |
| `SddcCluster.ClusterSpecFrom` | internal/sddc/sddc_cluster_subresource.go:156-182 | an empty list gives a nil spec; otherwise the first entry converts iff it is a map with well-typed attributes; name, EVC mode and host failures are carried over; ResourcePoolSpecs stays unset iff there are no pools and otherwise matches them one-to-one |
| `SddcCluster.GetSddcClusterSpecFromSchema` | internal/sddc/sddc_cluster_subresource.go:156-182 | an empty list gives a nil spec; success iff the first entry is well typed and vm_folder is empty or a `map[string]string`; VMFolders is nil iff vm_folder is empty and otherwise is that map; every failure is a panic |
| `SddcCluster.GetSddcClusterSpecFromSchemaCorrected` | internal/sddc/sddc_cluster_subresource.go:156-182 | the cluster conversion succeeds iff the first entry is well typed and vm_folder is empty or a string-valued attribute map; VMFolders is nil iff vm_folder is empty and otherwise holds the map's strings key by key; every failure is a panic |
| `SddcCluster.OnlyFirstEntryRead` | internal/sddc/sddc_cluster_subresource.go:157-160 | only the first list entry is read; later entries never change the result (the schema allows one) |
| `SddcCluster.ConformingPoolsConvert` | internal/sddc/sddc_cluster_subresource.go:42 | every pool of a cluster entry inside the declared domains is well typed for conversion |
| `SddcCluster.ConformingClusterConverts` | internal/sddc/sddc_cluster_subresource.go:161-174 | a cluster entry inside the declared domains and without VM folders converts; cluster_name, cluster_evc_mode and host_failures_to_tolerate (in [0,3]) arrive unchanged and every pool spec is inside its domains |
| `SddcCluster.ConformingFoldersPanic` | internal/sddc/sddc_cluster_subresource.go:164-167 | as written, a cluster entry inside the declared domains with any VM folder configured panics on the folder assertion |
| `SddcCluster.CorrectedAcceptsConforming` | internal/sddc/sddc_cluster_subresource.go:43-50 | the corrected converter accepts every cluster entry inside the declared domains and keeps its VM folders key by key |
| `SddcCluster.ExampleCluster` | internal/sddc/sddc_cluster_subresource.go:19-54 | the example cluster entry lies inside the declared domains |
| `SddcCluster.ExampleClusterOutcomes` | internal/sddc/sddc_cluster_subresource.go:164-167 | the example panics as written and converts once corrected |

## Left out

- internal/provider/resource_domain_test.go: an acceptance test. It reads environment variables, renders HCL and calls a live VCF API, so there is nothing pure to state.
- The `schema.Schema` builders (`VMNicSchema`, `NsxSchema`, `NsxClusterRefSchema`, `GetSddcClusterSchema`, `getResourcePoolSchema`) are static data for the Terraform plugin SDK. Only their attribute names, declared ranges, enums and defaults are kept, as `NsxSchemaKeys`, `PoolConforms`, `ClusterConforms` and `PoolDefaults`.
- The attribute validators (`NoZeroValues`, `ValidateIPv4AddressSchema`, `ValidatePassword`, `ValidateParsingFloatToInt`) belong to the SDK or to files not part of this model. Their effect appears only as declared domains.
- Floating point: the float64 attributes (cpu_limit, cpu_reservation_mhz, memory_limit, memory_reservation_mb) carry whole numbers. This is what `ValidateParsingFloatToInt` admits. A float64 outside the int64 range, whose Go conversion is implementation-defined, is not modelled.
- `TryConvertToNsxManagerNodeSpec` is not part of this model. It is a parameter, so any node converter can be plugged in.
- The `To*Pointer` helpers are not part of this model. They are given the assumed definitions described above.
- Values.IsEmpty: the repository's `validation.IsEmpty` is not part of this model. Counting the empty list and the empty maps as empty goes beyond a "nil or empty string" reading. The empty-map case of `vm_folder` rests on this assumption: an unset `vm_folder`, which the SDK hands over as an empty map, leaves VMFolders nil (`ReadVmFolders`, `ConformingClusterConverts`). Under the narrower reading, every cluster entry whose `vm_folder` is an empty map would reach the `map[string]string` assertion and panic as written.
- Pointer identity and the internals of the VCF SDK models are not modelled. Pointers are `Option`s and models are immutable values.
- Go's `int` is not bounded to 64 bits in `Value.Int`. The only width the converters impose is the int32 truncation, and that is modelled.

## Findings

| source | as written | input that shows it | evidently intended | confidence | as-written member | corrected member |
|---|---|---|---|---|---|---|
| internal/network/nsx_subresource.go:82 | the presence check reads `object["nsx_manager"]`, a key the NSX schema (lines 18-66) does not declare | any configuration that holds only schema attributes, e.g. `ExampleConfiguration` with vip, vip_fqdn, admin password, licence key and one `nsx_manager_node` entry, is refused with "nsx_manager is required" | check `nsx_manager_node`, the attribute the schema declares and line 107 reads | medium, not executed; it depends on the SDK handing over only declared attributes | `Nsx.SchemaShapedObjectRejected` | `Nsx.TryConvertToNsxSpecCorrected` |
| internal/sddc/sddc_cluster_subresource.go:166 | a non-empty `vm_folder` is asserted to be `map[string]string` | `ExampleCluster` with vm_folder `{"MANAGEMENT": "mgmt-folder"}`, handed over as `map[string]interface{}` the way the SDK delivers a TypeMap, panics | convert the string-valued `map[string]interface{}` into `map[string]string` | medium, not executed; it depends on the SDK's representation of TypeMap values | `SddcCluster.ConformingFoldersPanic` | `SddcCluster.GetSddcClusterSpecFromSchemaCorrected` |

=== FILE: lists.dfy ===
/**
 * Element-wise conversion of a list, as the converters' `for ... range`
 * loops do it: each element in order, appending to the result, and the
 * first failing element aborts the whole conversion.
 */
module Lists {
  import opened Wrappers

  /** Element k is the first element whose conversion fails. */
  ghost predicate FirstFailureAt<A, B, E>(xs: seq<A>, convert: A -> Result<B, E>, k: int) {
    && 0 <= k < |xs|
    && convert(xs[k]).Failure?
    && forall j :: 0 <= j < k ==> convert(xs[j]).Success?
  }

  function ConvertAll<A, B, E>(xs: seq<A>, convert: A -> Result<B, E>): (r: Result<seq<B>, E>)
    ensures r.Success? <==> forall i :: 0 <= i < |xs| ==> convert(xs[i]).Success?
    ensures r.Success? ==> |r.value| == |xs|
    ensures r.Success? ==> forall i :: 0 <= i < |xs| ==> convert(xs[i]) == Success(r.value[i])
    ensures r.Failure? ==> exists k :: FirstFailureAt(xs, convert, k) && convert(xs[k]) == Failure(r.error)
  {
    if |xs| == 0 then Success([])
    else
      match convert(xs[0])
      case Failure(e) =>
        assert FirstFailureAt(xs, convert, 0);
        Failure(e)
      case Success(y) =>
        match ConvertAll(xs[1..], convert)
        case Failure(e) =>
          ghost var k :| FirstFailureAt(xs[1..], convert, k) && convert(xs[1..][k]) == Failure(e);
          assert FirstFailureAt(xs, convert, k + 1);
          Failure(e)
        case Success(ys) =>
          Success([y] + ys)
  }

  /** The reported failure is that of the first failing element, and no other. */
  lemma FirstFailureReported<A, B, E>(xs: seq<A>, convert: A -> Result<B, E>, k: int)
    requires FirstFailureAt(xs, convert, k)
    ensures ConvertAll(xs, convert) == Failure(convert(xs[k]).error)
  {
  }

  /**
   * The converters' loop as written: append each converted element and
   * return at the first error. It computes exactly `ConvertAll`.
   */
  method ConvertEach<A, B, E>(xs: seq<A>, convert: A -> Result<B, E>) returns (r: Result<seq<B>, E>)
    ensures r == ConvertAll(xs, convert)
  {
    var acc: seq<B> := [];
    for i := 0 to |xs|
      invariant |acc| == i
      invariant forall j :: 0 <= j < i ==> convert(xs[j]) == Success(acc[j])
    {
      match convert(xs[i]) {
        case Failure(e) =>
          FirstFailureReported(xs, convert, i);
          return Failure(e);
        case Success(y) =>
          acc := acc + [y];
      }
    }
    var all := ConvertAll(xs, convert);
    assert all.Success?;
    assert all.value == acc;
    return Success(acc);
  }
}

=== FILE: nsx.dfy ===
/** The NSX-T converters of the network package. */
module Nsx {
  import opened Wrappers
  import opened Values
  import opened Lists

  /**
   * The VCF `NsxTSpec` request model. The node specs' own shape belongs to
   * `TryConvertToNsxManagerNodeSpec`, which is not part of this model, so it
   * is a type parameter.
   */
  datatype NsxTSpec<N> = NsxTSpec(
    vip: string,
    vipFqdn: string,
    nsxManagerAdminPassword: string,
    licenseKey: string,
    formFactor: string,
    nsxManagerAuditPassword: string,
    nsxManagerSpecs: seq<N>)

  /** The VCF `NsxTClusterReference` response model. */
  datatype NsxTClusterReference = NsxTClusterReference(id: string, vip: string, vipFqdn: string)

  /** A converter for one `nsx_manager_node` entry, standing for `TryConvertToNsxManagerNodeSpec`. */
  type NodeConverter<N> = Object -> Result<N, Failure>

  const NsxErrorPrefix := "cannot convert to NsxTSpec, "
  const NilObjectError := NsxErrorPrefix + "object is nil"
  const NodesRequiredError := NsxErrorPrefix + "at least one entry for nsx_manager is required"

  function RequiredError(name: string): string {
    NsxErrorPrefix + name + " is required"
  }

  /** The attribute names the NSX schema declares. */
  const NsxSchemaKeys: set<string> := {
    "vip", "vip_fqdn", "license_key", "form_factor",
    "nsx_manager_admin_password", "nsx_manager_audit_password", "nsx_manager_node"
  }

  /** The key the source reads for its node-presence check, and the key the schema declares. */
  const NsxManagerKey := "nsx_manager"
  const NsxManagerNodeKey := "nsx_manager_node"

  /** One required-attribute check, in the source's order. */
  datatype Check =
    | NonEmptyString(key: string)          // asserted to be a string, refused when ""
    | NotNil(key: string, name: string)   // refused when nil; the error names `name`

  function RequiredChecks(presenceKey: string): seq<Check> {
    [ NonEmptyString("vip"),
      NonEmptyString("vip_fqdn"),
      NotNil(presenceKey, NsxManagerKey),
      NonEmptyString("nsx_manager_admin_password"),
      NonEmptyString("license_key") ]
  }

  /** What a check reports on an object: None when it passes. */
  function CheckFailure(obj: Object, c: Check): Option<Failure> {
    match c
    case NonEmptyString(key) =>
      (match Lookup(obj, key)
       case Str(s) => if s == "" then Some(Error(RequiredError(key))) else None
       case _ => Some(Panic(key)))
    case NotNil(key, name) =>
      if Lookup(obj, key).Nil? then Some(Error(RequiredError(name))) else None
  }

  /** Every required check passes, in the order the source runs them. */
  predicate ChecksPass(obj: Object, presenceKey: string) {
    var cs := RequiredChecks(presenceKey);
    && CheckFailure(obj, cs[0]).None?
    && CheckFailure(obj, cs[1]).None?
    && CheckFailure(obj, cs[2]).None?
    && CheckFailure(obj, cs[3]).None?
    && CheckFailure(obj, cs[4]).None?
  }

  /** The optional string attributes are strings whenever present and non-empty. */
  predicate OptionalsTyped(obj: Object) {
    && (Present(obj, "form_factor") ==> obj["form_factor"].Str?)
    && (Present(obj, "nsx_manager_audit_password") ==> obj["nsx_manager_audit_password"].Str?)
  }

  /** One list entry: asserted to be an attribute map, then converted. */
  function ConvertNode<N>(node: Value, convertNode: NodeConverter<N>): Result<N, Failure> {
    if node.Obj? then convertNode(node.fields) else Failure(Panic(NsxManagerNodeKey))
  }

  /** Everything the node conversion needs: a non-empty list whose every entry converts. */
  ghost predicate NodesConvertible<N>(obj: Object, convertNode: NodeConverter<N>) {
    && Lookup(obj, NsxManagerNodeKey).List?
    && |Lookup(obj, NsxManagerNodeKey).items| > 0
    && forall i :: 0 <= i < |Lookup(obj, NsxManagerNodeKey).items| ==>
         ConvertNode(Lookup(obj, NsxManagerNodeKey).items[i], convertNode).Success?
  }

  /** The node specs of a result: one per list entry, in order. */
  ghost predicate NodesConverted<N>(obj: Object, convertNode: NodeConverter<N>, specs: seq<N>) {
    && Lookup(obj, NsxManagerNodeKey).List?
    && |Lookup(obj, NsxManagerNodeKey).items| == |specs| > 0
    && forall i :: 0 <= i < |specs| ==>
         ConvertNode(Lookup(obj, NsxManagerNodeKey).items[i], convertNode) == Success(specs[i])
  }

  /** The objects the converter accepts, given the key its presence check reads. */
  ghost predicate WellFormed<N>(obj: Object, presenceKey: string, convertNode: NodeConverter<N>) {
    && ChecksPass(obj, presenceKey)
    && OptionalsTyped(obj)
    && NodesConvertible(obj, convertNode)
  }

  /**
   * `TryConvertToNsxSpec`, with the key of its node-presence check as a
   * parameter: the source reads `presenceKey` = "nsx_manager".
   */
  function ConvertNsxSpec<N>(input: Option<Object>, presenceKey: string, convertNode: NodeConverter<N>)
    : (r: Result<NsxTSpec<N>, Failure>)
    ensures input.None? ==> r == Failure(Error(NilObjectError))
    ensures r.Success? <==> input.Some? && WellFormed(input.value, presenceKey, convertNode)
    ensures r.Success? ==> Lookup(input.value, "vip") == Str(r.value.vip) && r.value.vip != ""
    ensures r.Success? ==> Lookup(input.value, "vip_fqdn") == Str(r.value.vipFqdn) && r.value.vipFqdn != ""
    ensures r.Success? ==>
      Lookup(input.value, "nsx_manager_admin_password") == Str(r.value.nsxManagerAdminPassword)
      && r.value.nsxManagerAdminPassword != ""
    ensures r.Success? ==> Lookup(input.value, "license_key") == Str(r.value.licenseKey) && r.value.licenseKey != ""
    ensures r.Success? ==> CopiedOptional(input.value, "form_factor", r.value.formFactor)
    ensures r.Success? ==> CopiedOptional(input.value, "nsx_manager_audit_password", r.value.nsxManagerAuditPassword)
    ensures r.Success? ==> NodesConverted(input.value, convertNode, r.value.nsxManagerSpecs)
  {
    if input.None? then Failure(Error(NilObjectError))
    else
      var obj := input.value;
      var vip :- AsString(Lookup(obj, "vip"), "vip");
      if |vip| == 0 then Failure(Error(RequiredError("vip")))
      else
        var vipFqdn :- AsString(Lookup(obj, "vip_fqdn"), "vip_fqdn");
        if |vipFqdn| == 0 then Failure(Error(RequiredError("vip_fqdn")))
        else if Lookup(obj, presenceKey).Nil? then Failure(Error(RequiredError(NsxManagerKey)))
        else
          var adminPassword :- AsString(Lookup(obj, "nsx_manager_admin_password"), "nsx_manager_admin_password");
          if |adminPassword| == 0 then Failure(Error(RequiredError("nsx_manager_admin_password")))
          else
            var licenseKey :- AsString(Lookup(obj, "license_key"), "license_key");
            if |licenseKey| == 0 then Failure(Error(RequiredError("license_key")))
            else
              var formFactor :- OptionalString(obj, "form_factor");
              var auditPassword :- OptionalString(obj, "nsx_manager_audit_password");
              var nodes :- AsList(Lookup(obj, NsxManagerNodeKey), NsxManagerNodeKey);
              if |nodes| == 0 then Failure(Error(NodesRequiredError))
              else
                var specs :- ConvertAll(nodes, node => ConvertNode(node, convertNode));
                Success(NsxTSpec(vip, vipFqdn, adminPassword, licenseKey, formFactor, auditPassword, specs))
  }

  /** `TryConvertToNsxSpec` as written: the presence check reads "nsx_manager". */
  function TryConvertToNsxSpec<N>(input: Option<Object>, convertNode: NodeConverter<N>): (r: Result<NsxTSpec<N>, Failure>)
    ensures input.None? ==> r == Failure(Error(NilObjectError))
    ensures r.Success? <==>
      input.Some? && WellFormed(input.value, NsxManagerNodeKey, convertNode) && Lookup(input.value, NsxManagerKey) != Nil
  {
    ConvertNsxSpec(input, NsxManagerKey, convertNode)
  }

  /** The corrected converter: the presence check reads the declared "nsx_manager_node". */
  function TryConvertToNsxSpecCorrected<N>(input: Option<Object>, convertNode: NodeConverter<N>): (r: Result<NsxTSpec<N>, Failure>)
    ensures input.None? ==> r == Failure(Error(NilObjectError))
    ensures r.Success? <==> input.Some? && WellFormed(input.value, NsxManagerNodeKey, convertNode)
  {
    ConvertNsxSpec(input, NsxManagerNodeKey, convertNode)
  }

  /** The checks run in a fixed order: the first one that fails is the one reported. */
  lemma FirstFailingCheckReported<N>(obj: Object, presenceKey: string, convertNode: NodeConverter<N>, i: int)
    requires 0 <= i < 5
    requires forall j :: 0 <= j < i ==> CheckFailure(obj, RequiredChecks(presenceKey)[j]).None?
    requires CheckFailure(obj, RequiredChecks(presenceKey)[i]).Some?
    ensures ConvertNsxSpec(Some(obj), presenceKey, convertNode)
      == Failure(CheckFailure(obj, RequiredChecks(presenceKey)[i]).value)
  {
  }

  /** An empty node list is refused even when every other check passes. */
  lemma EmptyNodeListRejected<N>(obj: Object, presenceKey: string, convertNode: NodeConverter<N>)
    requires ChecksPass(obj, presenceKey) && OptionalsTyped(obj)
    requires Lookup(obj, NsxManagerNodeKey) == List([])
    ensures ConvertNsxSpec(Some(obj), presenceKey, convertNode) == Failure(Error(NodesRequiredError))
  {
  }

  /** The first node whose conversion fails decides the error, which is returned unchanged. */
  lemma NodeFailurePropagated<N>(obj: Object, presenceKey: string, convertNode: NodeConverter<N>, k: int)
    requires ChecksPass(obj, presenceKey) && OptionalsTyped(obj)
    requires Lookup(obj, NsxManagerNodeKey).List?
    requires FirstFailureAt(Lookup(obj, NsxManagerNodeKey).items, node => ConvertNode(node, convertNode), k)
    ensures ConvertNsxSpec(Some(obj), presenceKey, convertNode)
      == Failure(ConvertNode(Lookup(obj, NsxManagerNodeKey).items[k], convertNode).error)
  {
  }

  /**
   * The source's presence check reads "nsx_manager", a key the schema does
   * not declare: without it the object is refused, whatever its node list holds.
   */
  lemma NsxManagerKeyQuirk<N>(obj: Object, convertNode: NodeConverter<N>)
    requires CheckFailure(obj, NonEmptyString("vip")).None?
    requires CheckFailure(obj, NonEmptyString("vip_fqdn")).None?
    requires NsxManagerKey !in obj
    ensures TryConvertToNsxSpec(Some(obj), convertNode) == Failure(Error(RequiredError(NsxManagerKey)))
  {
  }

  /** As written, no object holding only the schema's attributes converts. */
  lemma SchemaShapedObjectRejected<N>(obj: Object, convertNode: NodeConverter<N>)
    requires obj.Keys <= NsxSchemaKeys
    ensures TryConvertToNsxSpec(Some(obj), convertNode).Failure?
  {
  }

  /** A schema-shaped configuration with one node, as the NSX schema describes it. */
  function ExampleConfiguration(): (obj: Object)
    ensures obj.Keys <= NsxSchemaKeys
  {
    map[
      "vip" := Str("10.0.0.65"),
      "vip_fqdn" := Str("nsx01.example.io"),
      "nsx_manager_admin_password" := Str("Admin_password1"),
      "license_key" := Str("XXXXX-XXXXX-XXXXX-XXXXX-XXXXX"),
      "nsx_manager_node" := List([Obj(map["name" := Str("nsx01a")])])
    ]
  }

  /** The corrected converter accepts the example; the converter as written refuses it. */
  lemma ExampleConfigurationOutcomes()
    ensures TryConvertToNsxSpec(Some(ExampleConfiguration()), (m: Object) => Success(m))
      == Failure(Error(RequiredError(NsxManagerKey)))
    ensures TryConvertToNsxSpecCorrected(Some(ExampleConfiguration()), (m: Object) => Success(m)).Success?
  {
  }

  /** `FlattenNsxClusterRef`: nil gives the empty map, a reference its three attributes. */
  function FlattenNsxClusterRef(ref: Option<NsxTClusterReference>): (m: Object)
    ensures ref.None? ==> m == map[]
    ensures ref.Some? ==> m.Keys == {"id", "vip", "vip_fqdn"}
    ensures ref.Some? ==> m["id"] == Str(ref.value.id) && m["vip"] == Str(ref.value.vip)
                          && m["vip_fqdn"] == Str(ref.value.vipFqdn)
  {
    if ref.None? then map[]
    else map["id" := Str(ref.value.id), "vip" := Str(ref.value.vip), "vip_fqdn" := Str(ref.value.vipFqdn)]
  }

  /** Reads a reference back from the attribute map of the cluster-reference schema. */
  function NsxClusterRefFromMap(m: Object): (ref: Option<NsxTClusterReference>)
    ensures ref.Some? <==> Lookup(m, "id").Str? && Lookup(m, "vip").Str? && Lookup(m, "vip_fqdn").Str?
    ensures ref.Some? ==>
      Lookup(m, "id") == Str(ref.value.id) && Lookup(m, "vip") == Str(ref.value.vip)
      && Lookup(m, "vip_fqdn") == Str(ref.value.vipFqdn)
  {
    match (Lookup(m, "id"), Lookup(m, "vip"), Lookup(m, "vip_fqdn"))
    case (Str(id), Str(vip), Str(vipFqdn)) => Some(NsxTClusterReference(id, vip, vipFqdn))
    case _ => None
  }

  /** Flattening loses nothing: the reference, or its absence, is read back. */
  lemma FlattenRoundTrip(ref: Option<NsxTClusterReference>)
    ensures NsxClusterRefFromMap(FlattenNsxClusterRef(ref)) == ref
  {
  }

  /** A map that reads back to a reference is exactly that reference's flattening on the three keys. */
  lemma FlattenFromMap(m: Object)
    requires NsxClusterRefFromMap(m).Some?
    ensures FlattenNsxClusterRef(NsxClusterRefFromMap(m)) == map k | k in m && k in {"id", "vip", "vip_fqdn"} :: m[k]
  {
  }
}

=== FILE: sddc_cluster.dfy ===
/** The vCenter cluster converter of the sddc package, and its schema's value domains. */
module SddcCluster {
  import opened Wrappers
  import opened Values
  import opened Lists

  /** The VCF `ResourcePoolSpec` request model; `Option` fields are Go pointers. */
  datatype ResourcePoolSpec = ResourcePoolSpec(
    cpuLimit: int,
    cpuReservationExpandable: bool,
    cpuReservationMhz: int,
    cpuReservationPercentage: Option<int>,
    cpuSharesLevel: string,
    cpuSharesValue: int,
    memoryLimit: int,
    memorySharesLevel: string,
    memoryReservationPercentage: Option<int>,
    memoryReservationExpandable: Option<bool>,
    memoryReservationMb: int,
    memorySharesValue: int,
    name: Option<string>,
    poolType: string)

  /** The VCF `SDDCClusterSpec` request model; `None` stands for a nil pointer, map or slice. */
  datatype SddcClusterSpec = SddcClusterSpec(
    clusterEvcMode: string,
    clusterName: Option<string>,
    hostFailuresToTolerate: Option<int>,
    vmFolders: Option<map<string, string>>,
    resourcePoolSpecs: Option<seq<ResourcePoolSpec>>)

  /** The key named by a failed assertion on a list entry itself. */
  const ClusterEntryKey := "rawData"
  const ResourcePoolKey := "resource_pool"
  const VmFolderKey := "vm_folder"

  // ---- Declared value domains of the cluster and resource-pool schemas ----

  const SharesLevelValues: set<string> := {"custom", "high", "low", "normal"}
  const ResourcePoolTypeValues: set<string> := {"management", "compute", "network"}

  predicate IntBetween(v: Value, lo: int, hi: int) {
    v.Int? && lo <= v.num <= hi
  }

  predicate StringIn(v: Value, values: set<string>) {
    v.Str? && v.str in values
  }

  /**
   * A resource pool as the plugin SDK hands it over: every declared
   * attribute present with its declared type (unset optional ones at their
   * default or zero value) and inside its declared domain. The optional
   * `type` has no default, so when unset it reads as "".
   */
  predicate PoolConforms(pool: Object) {
    && Lookup(pool, "name").Str?
    && (Lookup(pool, "type") == Str("") || StringIn(Lookup(pool, "type"), ResourcePoolTypeValues))
    && Lookup(pool, "cpu_limit").Float?
    && Lookup(pool, "cpu_reservation_expandable").Bool?
    && Lookup(pool, "cpu_reservation_mhz").Float?
    && IntBetween(Lookup(pool, "cpu_reservation_percentage"), 0, 100)
    && StringIn(Lookup(pool, "cpu_shares_level"), SharesLevelValues)
    && Lookup(pool, "cpu_shares_value").Int?
    && Lookup(pool, "memory_limit").Float?
    && Lookup(pool, "memory_reservation_expandable").Bool?
    && Lookup(pool, "memory_reservation_mb").Float?
    && IntBetween(Lookup(pool, "memory_reservation_percentage"), 0, 100)
    && StringIn(Lookup(pool, "memory_shares_level"), SharesLevelValues)
    && Lookup(pool, "memory_shares_value").Int?
  }

  /** A `vm_folder` value as the SDK hands over a string-valued map attribute. */
  predicate FolderMapConforms(v: Value) {
    v.Nil? || (v.Obj? && forall k :: k in v.fields ==> v.fields[k].Str?)
  }

  /** A cluster entry as the plugin SDK hands it over, inside the declared domains. */
  predicate ClusterConforms(data: Object) {
    && Lookup(data, "cluster_name").Str?
    && Lookup(data, "cluster_evc_mode").Str?
    && IntBetween(Lookup(data, "host_failures_to_tolerate"), 0, 3)
    && FolderMapConforms(Lookup(data, VmFolderKey))
    && Lookup(data, ResourcePoolKey).List?
    && forall i :: 0 <= i < |Lookup(data, ResourcePoolKey).items| ==>
         Lookup(data, ResourcePoolKey).items[i].Obj? && PoolConforms(Lookup(data, ResourcePoolKey).items[i].fields)
  }

  /** The declared defaults of the resource-pool schema, and the zero values of the optional attributes without one. */
  const PoolDefaults: Object := map[
    "type" := Str(""),
    "cpu_limit" := Float(-1),
    "cpu_reservation_expandable" := Bool(true),
    "cpu_reservation_mhz" := Float(0),
    "cpu_reservation_percentage" := Int(0),
    "cpu_shares_level" := Str("normal"),
    "cpu_shares_value" := Int(0),
    "memory_limit" := Float(-1),
    "memory_reservation_expandable" := Bool(true),
    "memory_reservation_mb" := Float(0),
    "memory_reservation_percentage" := Int(0),
    "memory_shares_level" := Str("normal"),
    "memory_shares_value" := Int(0)
  ]

  /** A pool converted from a conforming input stays inside the declared domains. */
  predicate PoolSpecInDomain(spec: ResourcePoolSpec) {
    && spec.name.Some?
    && (spec.poolType == "" || spec.poolType in ResourcePoolTypeValues)
    && spec.cpuReservationPercentage.Some? && 0 <= spec.cpuReservationPercentage.value <= 100
    && spec.memoryReservationPercentage.Some? && 0 <= spec.memoryReservationPercentage.value <= 100
    && spec.cpuSharesLevel in SharesLevelValues
    && spec.memorySharesLevel in SharesLevelValues
    && spec.memoryReservationExpandable.Some?
  }

  // ---- Resource pools ----

  /** `utils.ToInt32Pointer` read back: nil stays nil, an int arrives truncated to int32. */
  predicate Int32PointerFrom(v: Value, field: Option<int>) {
    (v.Nil? && field.None?) || (v.Int? && field == Some(Int32Of(v.num)))
  }

  /** Every attribute the pool conversion asserts has the type it asserts. */
  predicate PoolTyped(pool: Object) {
    && Lookup(pool, "cpu_limit").Float?
    && Lookup(pool, "cpu_reservation_expandable").Bool?
    && Lookup(pool, "cpu_reservation_mhz").Float?
    && (Lookup(pool, "cpu_reservation_percentage").Nil? || Lookup(pool, "cpu_reservation_percentage").Int?)
    && Lookup(pool, "cpu_shares_level").Str?
    && Lookup(pool, "cpu_shares_value").Int?
    && Lookup(pool, "memory_limit").Float?
    && (Lookup(pool, "memory_reservation_percentage").Nil? || Lookup(pool, "memory_reservation_percentage").Int?)
    && (Lookup(pool, "memory_reservation_expandable").Nil? || Lookup(pool, "memory_reservation_expandable").Bool?)
    && Lookup(pool, "memory_reservation_mb").Float?
    && Lookup(pool, "memory_shares_level").Str?
    && Lookup(pool, "memory_shares_value").Int?
    && (Lookup(pool, "name").Nil? || Lookup(pool, "name").Str?)
    && Lookup(pool, "type").Str?
  }

  /** How each field of a pool spec relates to the attribute it is read from. */
  predicate PoolCopied(pool: Object, spec: ResourcePoolSpec) {
    && Lookup(pool, "cpu_limit") == Float(spec.cpuLimit)
    && Lookup(pool, "cpu_reservation_expandable") == Bool(spec.cpuReservationExpandable)
    && Lookup(pool, "cpu_reservation_mhz") == Float(spec.cpuReservationMhz)
    && Int32PointerFrom(Lookup(pool, "cpu_reservation_percentage"), spec.cpuReservationPercentage)
    && Lookup(pool, "cpu_shares_level") == Str(spec.cpuSharesLevel)
    && Lookup(pool, "cpu_shares_value").Int? && spec.cpuSharesValue == Int32Of(Lookup(pool, "cpu_shares_value").num)
    && Lookup(pool, "memory_limit") == Float(spec.memoryLimit)
    && Int32PointerFrom(Lookup(pool, "memory_reservation_percentage"), spec.memoryReservationPercentage)
    && (if spec.memoryReservationExpandable.Some?
        then Lookup(pool, "memory_reservation_expandable") == Bool(spec.memoryReservationExpandable.value)
        else Lookup(pool, "memory_reservation_expandable").Nil?)
    && Lookup(pool, "memory_reservation_mb") == Float(spec.memoryReservationMb)
    && Lookup(pool, "memory_shares_level") == Str(spec.memorySharesLevel)
    && Lookup(pool, "memory_shares_value").Int? && spec.memorySharesValue == Int32Of(Lookup(pool, "memory_shares_value").num)
    && (if spec.name.Some? then Lookup(pool, "name") == Str(spec.name.value) else Lookup(pool, "name").Nil?)
    && Lookup(pool, "type") == Str(spec.poolType)
  }

  /** One iteration of the resource-pool loop. */
  function ToResourcePoolSpec(entry: Value): (r: Result<ResourcePoolSpec, Failure>)
    ensures r.Success? <==> entry.Obj? && PoolTyped(entry.fields)
    ensures r.Success? ==> PoolCopied(entry.fields, r.value)
    ensures r.Failure? ==> r.error.Panic?
  {
    var pool :- AsObject(entry, ResourcePoolKey);
    var cpuLimit :- AsWholeFloat(Lookup(pool, "cpu_limit"), "cpu_limit");
    var cpuReservationExpandable :- AsBool(Lookup(pool, "cpu_reservation_expandable"), "cpu_reservation_expandable");
    var cpuReservationMhz :- AsWholeFloat(Lookup(pool, "cpu_reservation_mhz"), "cpu_reservation_mhz");
    var cpuReservationPercentage :- ToInt32Pointer(Lookup(pool, "cpu_reservation_percentage"), "cpu_reservation_percentage");
    var cpuSharesLevel :- AsString(Lookup(pool, "cpu_shares_level"), "cpu_shares_level");
    var cpuSharesValue :- AsInt(Lookup(pool, "cpu_shares_value"), "cpu_shares_value");
    var memoryLimit :- AsWholeFloat(Lookup(pool, "memory_limit"), "memory_limit");
    var memoryReservationPercentage :- ToInt32Pointer(Lookup(pool, "memory_reservation_percentage"), "memory_reservation_percentage");
    var memoryReservationExpandable :- ToBoolPointer(Lookup(pool, "memory_reservation_expandable"), "memory_reservation_expandable");
    var memoryReservationMb :- AsWholeFloat(Lookup(pool, "memory_reservation_mb"), "memory_reservation_mb");
    var memorySharesLevel :- AsString(Lookup(pool, "memory_shares_level"), "memory_shares_level");
    var memorySharesValue :- AsInt(Lookup(pool, "memory_shares_value"), "memory_shares_value");
    var name :- ToStringPointer(Lookup(pool, "name"), "name");
    var poolType :- AsString(Lookup(pool, "type"), "type");
    Success(ResourcePoolSpec(
      cpuLimit, cpuReservationExpandable, cpuReservationMhz, cpuReservationPercentage,
      cpuSharesLevel, Int32Of(cpuSharesValue), memoryLimit, memorySharesLevel,
      memoryReservationPercentage, memoryReservationExpandable, memoryReservationMb,
      Int32Of(memorySharesValue), name, poolType))
  }

  /** `getResourcePoolSpecsFromSchema`: one spec per entry, in order; a failed assertion aborts. */
  function GetResourcePoolSpecsFromSchema(rawData: seq<Value>): (r: Result<seq<ResourcePoolSpec>, Failure>)
    ensures r.Success? <==> forall i :: 0 <= i < |rawData| ==> rawData[i].Obj? && PoolTyped(rawData[i].fields)
    ensures r.Success? ==> |r.value| == |rawData|
    ensures r.Success? ==> forall i :: 0 <= i < |rawData| ==> PoolCopied(rawData[i].fields, r.value[i])
    ensures r.Failure? ==> r.error.Panic?
  {
    ConvertAll(rawData, ToResourcePoolSpec)
  }

  /** Pools read from a conforming input convert, stay inside the declared domains and keep their percentages. */
  lemma ConformingPoolConverts(pool: Object)
    requires PoolConforms(pool)
    ensures ToResourcePoolSpec(Obj(pool)).Success?
    ensures PoolSpecInDomain(ToResourcePoolSpec(Obj(pool)).value)
    ensures ToResourcePoolSpec(Obj(pool)).value.cpuReservationPercentage == Some(Lookup(pool, "cpu_reservation_percentage").num)
    ensures ToResourcePoolSpec(Obj(pool)).value.memoryReservationPercentage == Some(Lookup(pool, "memory_reservation_percentage").num)
  {
  }

  /** A pool configured with a name only gets the declared defaults: unlimited CPU and memory, normal shares. */
  lemma NameOnlyPoolGetsDefaults(name: string)
    ensures PoolConforms(PoolDefaults["name" := Str(name)])
    ensures ToResourcePoolSpec(Obj(PoolDefaults["name" := Str(name)]))
      == Success(ResourcePoolSpec(-1, true, 0, Some(0), "normal", 0, -1, "normal", Some(0), Some(true), 0, 0, Some(name), ""))
  {
  }

  // ---- The cluster ----

  /** `vm_folder` as the source reads it: a non-empty value is asserted to be a `map[string]string`. */
  function ReadVmFolders(v: Value): (r: Result<Option<map<string, string>>, Failure>)
    ensures r == Success(None) <==> IsEmpty(v)
    ensures r.Success? && r.value.Some? ==> v == StrMap(r.value.value) && |r.value.value| > 0
    ensures r.Failure? <==> !IsEmpty(v) && !v.StrMap?
    ensures r.Failure? ==> r.error == Panic(VmFolderKey)
  {
    if IsEmpty(v) then Success(None)
    else
      var folders :- AsStringMap(v, VmFolderKey);
      Success(Some(folders))
  }

  /** `vm_folder` read as the SDK hands it over: a `map[string]interface{}` of strings. */
  function ReadVmFoldersCorrected(v: Value): (r: Result<Option<map<string, string>>, Failure>)
    ensures r == Success(None) <==> IsEmpty(v)
    ensures r.Success? <==> IsEmpty(v) || FolderMapConforms(v)
    ensures r.Success? && r.value.Some? ==>
      v.Obj? && r.value.value.Keys == v.fields.Keys && forall k :: k in v.fields ==> v.fields[k] == Str(r.value.value[k])
    ensures r.Failure? ==> r.error == Panic(VmFolderKey)
  {
    if IsEmpty(v) then Success(None)
    else if FolderMapConforms(v) then Success(Some(map k | k in v.fields :: v.fields[k].str))
    else Failure(Panic(VmFolderKey))
  }

  /** Every attribute the cluster conversion asserts has the type it asserts (`vm_folder` aside). */
  predicate ClusterTyped(data: Object) {
    && (Lookup(data, "cluster_name").Nil? || Lookup(data, "cluster_name").Str?)
    && Lookup(data, "cluster_evc_mode").Str?
    && (Lookup(data, "host_failures_to_tolerate").Nil? || Lookup(data, "host_failures_to_tolerate").Int?)
    && Lookup(data, ResourcePoolKey).List?
    && forall i :: 0 <= i < |Lookup(data, ResourcePoolKey).items| ==>
         Lookup(data, ResourcePoolKey).items[i].Obj? && PoolTyped(Lookup(data, ResourcePoolKey).items[i].fields)
  }

  /** How each field of a cluster spec relates to the attribute it is read from (`vm_folder` aside). */
  predicate ClusterCopied(data: Object, spec: SddcClusterSpec) {
    && (if spec.clusterName.Some? then Lookup(data, "cluster_name") == Str(spec.clusterName.value)
        else Lookup(data, "cluster_name").Nil?)
    && Lookup(data, "cluster_evc_mode") == Str(spec.clusterEvcMode)
    && Int32PointerFrom(Lookup(data, "host_failures_to_tolerate"), spec.hostFailuresToTolerate)
    && Lookup(data, ResourcePoolKey).List?
    && (spec.resourcePoolSpecs.None? <==> |Lookup(data, ResourcePoolKey).items| == 0)
    && (spec.resourcePoolSpecs.Some? ==>
          && |spec.resourcePoolSpecs.value| == |Lookup(data, ResourcePoolKey).items|
          && forall i :: 0 <= i < |spec.resourcePoolSpecs.value| ==>
               && Lookup(data, ResourcePoolKey).items[i].Obj?
               && PoolCopied(Lookup(data, ResourcePoolKey).items[i].fields, spec.resourcePoolSpecs.value[i]))
  }

  /** `GetSddcClusterSpecFromSchema`, with the reading of `vm_folder` as a parameter. */
  function ClusterSpecFrom(rawData: seq<Value>, readFolders: Value -> Result<Option<map<string, string>>, Failure>)
    : (r: Result<Option<SddcClusterSpec>, Failure>)
    ensures |rawData| == 0 ==> r == Success(None)
    ensures r.Success? <==>
      |rawData| == 0
      || (rawData[0].Obj? && ClusterTyped(rawData[0].fields) && readFolders(Lookup(rawData[0].fields, VmFolderKey)).Success?)
    ensures r.Success? && |rawData| > 0 ==>
      && r.value.Some?
      && ClusterCopied(rawData[0].fields, r.value.value)
      && readFolders(Lookup(rawData[0].fields, VmFolderKey)) == Success(r.value.value.vmFolders)
  {
    if |rawData| == 0 then Success(None)
    else
      var data :- AsObject(rawData[0], ClusterEntryKey);
      var clusterName :- ToStringPointer(Lookup(data, "cluster_name"), "cluster_name");
      var clusterEvcMode :- AsString(Lookup(data, "cluster_evc_mode"), "cluster_evc_mode");
      var hostFailuresToTolerate :- ToInt32Pointer(Lookup(data, "host_failures_to_tolerate"), "host_failures_to_tolerate");
      var vmFolders :- readFolders(Lookup(data, VmFolderKey));
      var pools :- AsList(Lookup(data, ResourcePoolKey), ResourcePoolKey);
      var specs :- GetResourcePoolSpecsFromSchema(pools);
      Success(Some(SddcClusterSpec(
        clusterEvcMode, clusterName, hostFailuresToTolerate, vmFolders,
        if |specs| > 0 then Some(specs) else None)))
  }

  /** `GetSddcClusterSpecFromSchema` as written. */
  function GetSddcClusterSpecFromSchema(rawData: seq<Value>): (r: Result<Option<SddcClusterSpec>, Failure>)
    ensures |rawData| == 0 ==> r == Success(None)
    ensures r.Success? && |rawData| > 0 ==>
      r.value.Some? && rawData[0].Obj? && ClusterCopied(rawData[0].fields, r.value.value)
    ensures r.Success? && |rawData| > 0 ==>
      rawData[0].Obj? && (r.value.value.vmFolders.None? <==> IsEmpty(Lookup(rawData[0].fields, VmFolderKey)))
    ensures r.Success? && |rawData| > 0 && r.value.value.vmFolders.Some? ==>
      Lookup(rawData[0].fields, VmFolderKey) == StrMap(r.value.value.vmFolders.value)
    ensures r.Success? <==>
      |rawData| == 0
      || (rawData[0].Obj? && ClusterTyped(rawData[0].fields)
          && (IsEmpty(Lookup(rawData[0].fields, VmFolderKey)) || Lookup(rawData[0].fields, VmFolderKey).StrMap?))
    ensures r.Failure? ==> r.error.Panic?
  {
    ClusterSpecFrom(rawData, ReadVmFolders)
  }

  /** The corrected converter: `vm_folder` is read as the map of strings the SDK provides. */
  function GetSddcClusterSpecFromSchemaCorrected(rawData: seq<Value>): (r: Result<Option<SddcClusterSpec>, Failure>)
    ensures |rawData| == 0 ==> r == Success(None)
    ensures r.Success? && |rawData| > 0 ==>
      r.value.Some? && rawData[0].Obj? && ClusterCopied(rawData[0].fields, r.value.value)
    ensures r.Success? <==>
      |rawData| == 0
      || (rawData[0].Obj? && ClusterTyped(rawData[0].fields)
          && (IsEmpty(Lookup(rawData[0].fields, VmFolderKey)) || FolderMapConforms(Lookup(rawData[0].fields, VmFolderKey))))
    ensures r.Success? && |rawData| > 0 ==>
      (r.value.value.vmFolders.None? <==> IsEmpty(Lookup(rawData[0].fields, VmFolderKey)))
    ensures r.Success? && |rawData| > 0 && r.value.value.vmFolders.Some? ==>
      var v := Lookup(rawData[0].fields, VmFolderKey);
      var folders := r.value.value.vmFolders.value;
      v.Obj? && folders.Keys == v.fields.Keys && forall k :: k in v.fields ==> v.fields[k] == Str(folders[k])
    ensures r.Failure? ==> r.error.Panic?
  {
    ClusterSpecFrom(rawData, ReadVmFoldersCorrected)
  }

  /** Only the first entry of the list is read: the schema allows at most one. */
  lemma OnlyFirstEntryRead(rawData: seq<Value>)
    requires |rawData| > 0
    ensures GetSddcClusterSpecFromSchema(rawData) == GetSddcClusterSpecFromSchema(rawData[..1])
    ensures GetSddcClusterSpecFromSchemaCorrected(rawData) == GetSddcClusterSpecFromSchemaCorrected(rawData[..1])
  {
  }

  /** Every pool of a conforming cluster entry is well typed for conversion. */
  lemma ConformingPoolsConvert(data: Object)
    requires ClusterConforms(data)
    ensures ClusterTyped(data)
  {
  }

  /**
   * A conforming cluster entry without VM folders converts: name, EVC mode
   * and host failures to tolerate arrive unchanged and every pool spec is
   * inside the declared domains.
   */
  lemma ConformingClusterConverts(data: Object, rest: seq<Value>)
    requires ClusterConforms(data) && IsEmpty(Lookup(data, VmFolderKey))
    ensures var r := GetSddcClusterSpecFromSchema([Obj(data)] + rest);
      && r.Success? && r.value.Some?
      && r.value.value.clusterName == Some(Lookup(data, "cluster_name").str)
      && r.value.value.clusterEvcMode == Lookup(data, "cluster_evc_mode").str
      && r.value.value.hostFailuresToTolerate == Some(Lookup(data, "host_failures_to_tolerate").num)
      && r.value.value.vmFolders.None?
      && (r.value.value.resourcePoolSpecs.Some? ==>
            forall i :: 0 <= i < |r.value.value.resourcePoolSpecs.value| ==> PoolSpecInDomain(r.value.value.resourcePoolSpecs.value[i]))
  {
    var rawData := [Obj(data)] + rest;
    assert rawData[0] == Obj(data);
    ConformingPoolsConvert(data);
    Int32OfInRange(Lookup(data, "host_failures_to_tolerate").num);
    var r := GetSddcClusterSpecFromSchema(rawData);
    assert r.Success?;
    var spec := r.value.value;
    if spec.resourcePoolSpecs.Some? {
      var pools := Lookup(data, ResourcePoolKey).items;
      forall i | 0 <= i < |spec.resourcePoolSpecs.value|
        ensures PoolSpecInDomain(spec.resourcePoolSpecs.value[i])
      {
        ConformingPoolConverts(pools[i].fields);
        assert ToResourcePoolSpec(pools[i]) == Success(spec.resourcePoolSpecs.value[i]);
      }
    }
  }

  /** As written, a conforming cluster entry with any VM folder configured panics on the folder assertion. */
  lemma ConformingFoldersPanic(data: Object, rest: seq<Value>)
    requires ClusterConforms(data) && !IsEmpty(Lookup(data, VmFolderKey))
    ensures GetSddcClusterSpecFromSchema([Obj(data)] + rest) == Failure(Panic(VmFolderKey))
  {
  }

  /** The corrected converter accepts every conforming cluster entry and keeps its VM folders. */
  lemma CorrectedAcceptsConforming(data: Object, rest: seq<Value>)
    requires ClusterConforms(data)
    ensures var r := GetSddcClusterSpecFromSchemaCorrected([Obj(data)] + rest);
      && r.Success? && r.value.Some?
      && (r.value.value.vmFolders.None? <==> IsEmpty(Lookup(data, VmFolderKey)))
      && (r.value.value.vmFolders.Some? ==>
            forall k :: k in Lookup(data, VmFolderKey).fields <==>
              k in r.value.value.vmFolders.value && Lookup(data, VmFolderKey).fields[k] == Str(r.value.value.vmFolders.value[k]))
  {
  }

  /** A cluster entry in the declared domains with one VM folder. */
  function ExampleCluster(): (data: Object)
    ensures ClusterConforms(data)
  {
    var data := map[
      "cluster_name" := Str("cluster01"),
      "cluster_evc_mode" := Str(""),
      "host_failures_to_tolerate" := Int(1),
      "vm_folder" := Obj(map["MANAGEMENT" := Str("mgmt-folder")]),
      "resource_pool" := List([])
    ];
    assert Lookup(data, "resource_pool") == List([]);
    data
  }

  /** The example panics as written and converts once corrected. */
  lemma ExampleClusterOutcomes()
    ensures GetSddcClusterSpecFromSchema([Obj(ExampleCluster())]) == Failure(Panic(VmFolderKey))
    ensures GetSddcClusterSpecFromSchemaCorrected([Obj(ExampleCluster())]).Success?
  {
  }
}

=== FILE: values.dfy ===
/**
 * Terraform's generic attribute values, as a converter receives them from
 * the plugin SDK (`interface{}` in Go), and the typed reads the converters
 * perform on them.
 */
module Values {
  import opened Wrappers

  /** One dynamically typed attribute value. */
  datatype Value =
    | Nil                                  // the untyped nil interface; also what a missing key reads as
    | Str(str: string)                     // string
    | Int(num: int)                        // Go int; its 64-bit width is not modelled
    | Float(whole: int)                    // float64 holding a whole number
    | Bool(flag: bool)                     // bool
    | List(items: seq<Value>)              // []interface{}
    | Obj(fields: map<string, Value>)      // map[string]interface{}
    | StrMap(entries: map<string, string>) // map[string]string

  /** An attribute map, `map[string]interface{}`. */
  type Object = map<string, Value>

  /** Why a conversion stopped: a returned error, or a failed type assertion on a key. */
  datatype Failure = Error(message: string) | Panic(key: string)

  /** Go's index expression on a map: a missing key reads as nil. */
  function Lookup(obj: Object, key: string): Value {
    if key in obj then obj[key] else Nil
  }

  /**
   * The repository's `IsEmpty` check (not part of this model): assumed to
   * hold of nil and of strings, lists and maps of length zero. It covers the
   * narrower "nil or empty string" reading and extends it only by the empty
   * list and the empty maps.
   */
  function IsEmpty(v: Value): (empty: bool)
    ensures v.Nil? || v == Str("") ==> empty
    ensures empty ==> v.Nil? || v == Str("") || v == List([]) || v == Obj(map[]) || v == StrMap(map[])
  {
    match v
    case Nil => true
    case Str(s) => |s| == 0
    case List(xs) => |xs| == 0
    case Obj(m) => |m| == 0
    case StrMap(m) => |m| == 0
    case _ => false
  }

  /** The `v, ok := obj[key]; ok && !IsEmpty(v)` guard on optional attributes. */
  predicate Present(obj: Object, key: string) {
    key in obj && !IsEmpty(obj[key])
  }

  // Go type assertions `v.(T)`: they panic unless the dynamic type is T.

  function AsString(v: Value, key: string): Result<string, Failure> {
    if v.Str? then Success(v.str) else Failure(Panic(key))
  }

  function AsInt(v: Value, key: string): Result<int, Failure> {
    if v.Int? then Success(v.num) else Failure(Panic(key))
  }

  /** `int64(v.(float64))` on a whole-number float. */
  function AsWholeFloat(v: Value, key: string): Result<int, Failure> {
    if v.Float? then Success(v.whole) else Failure(Panic(key))
  }

  function AsBool(v: Value, key: string): Result<bool, Failure> {
    if v.Bool? then Success(v.flag) else Failure(Panic(key))
  }

  function AsList(v: Value, key: string): Result<seq<Value>, Failure> {
    if v.List? then Success(v.items) else Failure(Panic(key))
  }

  function AsObject(v: Value, key: string): Result<Object, Failure> {
    if v.Obj? then Success(v.fields) else Failure(Panic(key))
  }

  function AsStringMap(v: Value, key: string): Result<map<string, string>, Failure> {
    if v.StrMap? then Success(v.entries) else Failure(Panic(key))
  }

  /**
   * Optional string attribute: copied when present and non-empty (asserting
   * it is a string), otherwise left at Go's zero value "".
   */
  function OptionalString(obj: Object, key: string): (r: Result<string, Failure>)
    ensures r.Success? <==> !Present(obj, key) || obj[key].Str?
    ensures r.Success? ==> (r.value == "" <==> !Present(obj, key))
    ensures r.Success? && r.value != "" ==> obj[key] == Str(r.value)
    ensures r.Failure? ==> r.error == Panic(key)
  {
    if Present(obj, key) then AsString(obj[key], key) else Success("")
  }

  /** An optional field of a converted model: the attribute's string when
      present and non-empty, else the zero value "". */
  predicate CopiedOptional(obj: Object, key: string, field: string) {
    if Present(obj, key) then obj[key] == Str(field) else field == ""
  }

  const Int32Modulus: int := 0x1_0000_0000
  const Int32Min: int := -0x8000_0000
  const Int32Max: int := 0x7FFF_FFFF

  predicate InInt32(x: int) {
    Int32Min <= x <= Int32Max
  }

  /** Go's `int32(x)` conversion: two's-complement wrap-around. */
  function Int32Of(x: int): (r: int)
    ensures InInt32(r)
    ensures (x - r) % Int32Modulus == 0
  {
    (x - Int32Min) % Int32Modulus + Int32Min
  }

  /** Inside the int32 range the conversion changes nothing. */
  lemma Int32OfInRange(x: int)
    requires InInt32(x)
    ensures Int32Of(x) == x
  {
  }

  // The repository's pointer helpers (not part of this model), assumed to
  // map nil to a nil pointer and otherwise assert the dynamic type.

  /** `utils.ToStringPointer`. */
  function ToStringPointer(v: Value, key: string): (r: Result<Option<string>, Failure>)
    ensures r.Success? <==> v.Nil? || v.Str?
    ensures r == Success(None) <==> v.Nil?
    ensures r.Success? && r.value.Some? ==> v == Str(r.value.value)
    ensures r.Failure? ==> r.error == Panic(key)
  {
    match v
    case Nil => Success(None)
    case Str(s) => Success(Some(s))
    case _ => Failure(Panic(key))
  }

  /** `utils.ToInt32Pointer`: asserts a Go int and truncates it to int32. */
  function ToInt32Pointer(v: Value, key: string): (r: Result<Option<int>, Failure>)
    ensures r.Success? <==> v.Nil? || v.Int?
    ensures r == Success(None) <==> v.Nil?
    ensures r.Success? && r.value.Some? ==> v.Int? && r.value.value == Int32Of(v.num)
    ensures r.Failure? ==> r.error == Panic(key)
  {
    match v
    case Nil => Success(None)
    case Int(n) => Success(Some(Int32Of(n)))
    case _ => Failure(Panic(key))
  }

  /** `utils.ToBoolPointer`. */
  function ToBoolPointer(v: Value, key: string): (r: Result<Option<bool>, Failure>)
    ensures r.Success? <==> v.Nil? || v.Bool?
    ensures r == Success(None) <==> v.Nil?
    ensures r.Success? && r.value.Some? ==> v == Bool(r.value.value)
    ensures r.Failure? ==> r.error == Panic(key)
  {
    match v
    case Nil => Success(None)
    case Bool(b) => Success(Some(b))
    case _ => Failure(Panic(key))
  }
}

=== FILE: vmnic.dfy ===
/** The ESXi host vmnic converter of the network package. */
module VmNic {
  import opened Wrappers
  import opened Values

  /** The VCF `VMNic` request model; "" is Go's zero value for an unset field. */
  datatype VmNic = VmNic(id: string, uplink: string, vdsName: string)

  const NilObjectError := "cannot convert to VMNic, object is nil"
  const IdRequiredError := "cannot convert to VMNic, id is required"

  /** The two refusals the converter can return as errors. */
  predicate IsVmNicError(f: Failure) {
    f == Error(NilObjectError) || f == Error(IdRequiredError)
  }

  /** Inputs the converter accepts: a non-nil object with a non-empty string id,
      whose optional uplink and vds_name are strings whenever present and non-empty. */
  predicate Convertible(input: Option<Object>) {
    && input.Some?
    && Lookup(input.value, "id").Str?
    && Lookup(input.value, "id").str != ""
    && (Present(input.value, "uplink") ==> input.value["uplink"].Str?)
    && (Present(input.value, "vds_name") ==> input.value["vds_name"].Str?)
  }

  function TryConvertToVmNic(input: Option<Object>): (r: Result<VmNic, Failure>)
    ensures input.None? ==> r == Failure(Error(NilObjectError))
    ensures input.Some? && Lookup(input.value, "id") == Str("") ==> r == Failure(Error(IdRequiredError))
    ensures r.Success? <==> Convertible(input)
    ensures r.Failure? && r.error.Error? ==> IsVmNicError(r.error)
    ensures r.Success? ==> Lookup(input.value, "id") == Str(r.value.id) && r.value.id != ""
    ensures r.Success? ==> CopiedOptional(input.value, "uplink", r.value.uplink)
    ensures r.Success? ==> CopiedOptional(input.value, "vds_name", r.value.vdsName)
  {
    if input.None? then Failure(Error(NilObjectError))
    else
      var obj := input.value;
      var id :- AsString(Lookup(obj, "id"), "id");
      if |id| == 0 then Failure(Error(IdRequiredError))
      else
        var uplink :- OptionalString(obj, "uplink");
        var vdsName :- OptionalString(obj, "vds_name");
        Success(VmNic(id, uplink, vdsName))
  }

  /** The attribute map a VMNic is configured with under the vmnic schema. */
  function VmNicObject(nic: VmNic): (obj: Object)
    ensures obj.Keys == {"id", "uplink", "vds_name"}
    ensures obj["id"] == Str(nic.id) && obj["uplink"] == Str(nic.uplink) && obj["vds_name"] == Str(nic.vdsName)
  {
    map["id" := Str(nic.id), "uplink" := Str(nic.uplink), "vds_name" := Str(nic.vdsName)]
  }

  /** Every VMNic with an id is recovered from its attribute map; empty
      optional attributes come back as the zero value they started as. */
  lemma VmNicRoundTrip(nic: VmNic)
    requires nic.id != ""
    ensures TryConvertToVmNic(Some(VmNicObject(nic))) == Success(nic)
  {
  }

  /** The result depends only on the three schema attributes: other keys are ignored. */
  lemma OnlySchemaKeysRead(obj: Object, key: string, v: Value)
    requires key !in {"id", "uplink", "vds_name"}
    ensures TryConvertToVmNic(Some(obj[key := v])) == TryConvertToVmNic(Some(obj))
  {
  }
}

=== FILE: wrappers.dfy ===
/** Option, and the failure-compatible Result that every converter returns. */
module Wrappers {

  /** A value that may be absent: a Go pointer or map that may be nil. */
  datatype Option<+T> = None | Some(value: T)

  /** The outcome of a conversion: a value, or the reason it was refused. */
  datatype Result<+T, +E> = Success(value: T) | Failure(error: E) {

    predicate IsFailure() {
      Failure?
    }

    function PropagateFailure<U>(): Result<U, E>
      requires Failure?
    {
      Failure(error)
    }

    function Extract(): T
      requires Success?
    {
      value
    }
  }
}
